=== FILE: README.md ===
# Metashell metadebugger stepping and source positions, in Dafny

This project models two pieces of Metashell, the interactive C++ template
metaprogramming shell.

The first is the stepping state machine of `mdb`, the metadebugger. It works over an
evaluation trace that the engine has already produced. A trace is a sequence of frames.
Each frame has a type name, an event kind and a depth. The session holds:

- the trace and its terminal outcome (a result type or an error);
- a cursor: not evaluated yet, before the first frame, on frame `i`, or at the end;
- the caching flag;
- the display mode (default or full).

The commands are `step [n]`, `step over [n]`, `step out [n]` and `continue`. Each one
returns the new session and the items the debugger displays:

- a frame;
- "Metaprogram finished" followed by the result type or the error;
- "Metaprogram reached the beginning";
- an error text.

The second piece is `source_position_of`. It folds a text into the (line, column) just
past its end. The model also covers position equality and the `line:column` rendering.

Files:

- `results.dfy`: `Option` and `Result`.
- `decimal.dfy`: decimal rendering and parsing. It reads step counts and renders positions.
- `source_position.dfy`: module `SourcePositions`.
- `trace.dfy`: module `Traces`. Frames, positions, backtrace length, and the single, over
  and out motions in both directions.
- `mdb.dfy`: module `Mdb`. The session, the display and the commands.
- `mdb_properties.dfy`: module `MdbProperties`. Properties of the commands for every trace.

A position in a trace of N frames is an integer from -1 to N. -1 is before the first
frame and N is the terminal outcome. The backtrace length of a frame is its depth plus one,
and it is 0 at either end. Step over repeats single steps while the backtrace is longer than
where it began. Step out repeats them while it is at least as long. Both stop at the end
they move towards. A count n repeats the motion |n| times, backward when n is negative, and
stops early at an end. The display then depends on whether n was 0, as described below.

Three behaviours are fixed by particular tests:

- Backward stepping without caching fails with the caching error, except before the first
  frame. The test at test/system/mdb/test_step.cpp:449-460 runs `step -1` at the start in
  both caching modes and expects "Metaprogram reached the beginning".
- `step out -1` from a nested frame lands on the parent frame itself. The test at
  test/system/mdb/test_step.cpp:723-735 expects an instantiation frame there. From a frame at
  depth 0 the same loop reaches the position before the first frame
  (`MdbProperties.OutBackwardFromTopLevel`); no test issues `step out -1` from such a frame.
  The test at test/system/mdb/test_step.cpp:713-721 issues it at the start.
- Deduced-substitution events are not hidden in the default mode, because the test at
  test/system/mdb/test_step.cpp:749-751 stops on one. In the display, full mode shows a frame
  without its event kind, as the tests at test/system/mdb/test_step.cpp:425-438 compare
  full-mode frames by type alone. Full mode also walks a different trace: there the engine
  reports the full instantiation tree, so fib<2> under fib<3> can be followed by fib<0> and fib<1>
  (test/system/mdb/test_step.cpp:431-438). In the default mode the same fib<2> is a memoization
  leaf (test/system/mdb/test_step.cpp:284-296). The model takes whichever trace the engine
  produced for the session's mode as an input.

## Model

| member | source | states |
|---|---|---|
| Mdb.Execute | test/system/mdb/test_step.cpp:76-86 | Before a metaprogram is evaluated every command yields "Metaprogram not evaluated yet" and leaves the session unchanged; a bad count token is reported with its text; a `step`, `step over` or `step out` with a valid count runs that motion that many times; `continue` moves to the end and reports the outcome |
| MdbProperties.NothingBeforeEvaluation | test/system/mdb/test_step.cpp:76-86 | Any command before evaluation shows exactly the not-evaluated error and changes nothing |
| Mdb.Run | test/system/mdb/test_step.cpp:814-826 | Backward motion with caching off and the cursor not at the beginning yields exactly the caching error and no other output does; only the cursor ever changes; forward motion never moves back and moves forward unless already at the end; backward motion with caching moves back unless already at the beginning, where it only reports the beginning; every motion that does not fail shows what `Mdb.Report` shows for where it stops |
| MdbProperties.ForwardShowsStop | test/system/mdb/test_step.cpp:521-535 | Every forward step, step over or step out, with or without caching, shows the frame it stops on, or the terminal report at the end |
| Mdb.Report | test/system/mdb/test_step.cpp:171-217 | After `step 0` output is empty exactly at the two ends, otherwise the current frame; after a real motion it is the terminal report, the beginning notice or the frame reached |
| Mdb.FinishedReport | test/system/mdb/test_step.cpp:794-812 | The terminal report is two items: "Metaprogram finished", then the result type or the error |
| Mdb.ShowFrameIn | test/system/mdb/test_step.cpp:416-447 | A frame is shown with its type name, and with its event kind exactly in default mode |
| Mdb.ParseCount | test/system/mdb/test_step.cpp:781-792 | No token means 1; a token is accepted exactly when it is an integer, and then its value is the integer it denotes; a rejected token yields "Error: Invalid integer: <token>\n" |
| MdbProperties.CountRoundTrip | test/system/mdb/test_step.cpp:781-792 | Every rendered integer is accepted as a count and read back as itself |
| MdbProperties.InvalidCountRejected | test/system/mdb/test_step.cpp:781-792 | A non-integer count token leaves the session unchanged and the error names the token |
| MdbProperties.GarbageCountExample | test/system/mdb/test_step.cpp:789-790 | `step asd` yields "Error: Invalid integer: asd\n" |
| MdbProperties.StepZero | test/system/mdb/test_step.cpp:171-217 | `step 0` changes nothing, shows nothing at the start or the end, and re-shows the current frame otherwise |
| MdbProperties.StepForwardClampsAtEnd | test/system/mdb/test_step.cpp:219-233 | A forward step count past the remaining events lands at the end and reports the outcome once |
| MdbProperties.StepBackwardClampsAtBeginning | test/system/mdb/test_step.cpp:462-482 | A backward step count past the first frame lands before it and reports the beginning, not an error |
| MdbProperties.StepRoundTrip | test/system/mdb/test_step.cpp:484-503 | With caching, `step k` then `step -k` restores the session when the forward steps were not clamped |
| MdbProperties.StepBackRoundTrip | test/system/mdb/test_step.cpp:484-503 | With caching, `step -k` then `step k` restores the session when the backward steps were not clamped; the test moves forward then back, and this reverse direction is the model's own inverse property |
| MdbProperties.BackToFirstFrame | test/system/mdb/test_step.cpp:462-503 | From the start, `step 1; step -1` reports the beginning and `step 2; step -1` shows the first frame |
| MdbProperties.ForwardStepsAdd | test/system/mdb/test_step.cpp:253-348 | `step a` then `step b` reaches the same session as `step a+b` |
| MdbProperties.CountsAdd | test/system/mdb/test_step.cpp:660-711 | For every motion, two commands whose counts have the same sign reach the session the summed count reaches, with or without caching |
| MdbProperties.StepOutRepeatedFinishes | test/system/mdb/test_step.cpp:679-692 | `step out n` on a frame of depth below n reports the terminal outcome |
| MdbProperties.StepOutRepeatedLeavesLevels | test/system/mdb/test_step.cpp:660-677 | `step out n` on a frame stops at the end or on a frame at least n levels shallower |
| MdbProperties.TerminalIsSticky | test/system/mdb/test_step.cpp:342-346 | At the end, every forward motion stays there and repeats the terminal report |
| MdbProperties.ContinueThenStep | test/system/mdb/test_step.cpp:794-812 | `continue` reports the outcome, and a later `continue` or forward step reports the same two items again, the error included |
| MdbProperties.ContinueIsStepToEnd | test/system/mdb/test_step.cpp:200-233 | `continue` gives the same response as a step whose count reaches past the trace |
| MdbProperties.NoBackwardWithoutCaching | test/system/mdb/test_step.cpp:814-826 | Without caching, after any forward motion, `step -n`, `step over -n` and `step out -n` all yield the caching error and change nothing |
| MdbProperties.BackwardAtBeginning | test/system/mdb/test_step.cpp:449-460 | Before the first frame every backward motion reports the beginning, with or without caching |
| MdbProperties.OverOrOutFromStartFinishes | test/system/mdb/test_step.cpp:505-519 | From the start, step over and step out run to the end and report the outcome |
| MdbProperties.OutOfTopLevelFinishes | test/system/mdb/test_step.cpp:607-622 | Step out from a depth-0 frame runs to the end and reports the outcome |
| MdbProperties.OverSkipsSubtree | test/system/mdb/test_step.cpp:521-535 | Step over stops at the end or on a later frame no deeper than the start, and every frame it passes is deeper |
| MdbProperties.OutLeavesFrame | test/system/mdb/test_step.cpp:624-711 | Step out stops at the end or on the nearest later frame shallower than the start: every frame it passes is at least as deep as the start |
| MdbProperties.OverRoundTripSession | test/system/mdb/test_step.cpp:537-589 | With caching, `step over` then `step over -1` returns to the start frame when step over stopped at the same depth |
| MdbProperties.OutBackwardShowsParent | test/system/mdb/test_step.cpp:723-735 | In a well-formed trace, `step out -1` from a nested frame shows the nearest earlier frame one level shallower: every frame in between is at least as deep as the start |
| MdbProperties.OutMinusOneAtStart | test/system/mdb/test_step.cpp:713-721 | The command `step out -1` at the start, before any step, reports the beginning and changes nothing |
| MdbProperties.SingleEventTrace | test/system/mdb/test_step.cpp:235-251 | With a one-event trace, the first `step` shows that event and the next one reports the outcome |
| Traces.SeekForward | test/system/mdb/test_step.cpp:505-551 | The result is the first later position that is the end or has a backtrace no longer than the bound |
| Traces.SeekBackward | test/system/mdb/test_step.cpp:537-551 | The result is the last earlier position that is the beginning or has a backtrace no longer than the bound |
| Traces.MoveOnce | test/system/mdb/test_step.cpp:505-551 | One single step moves by one; one step over or step out stops at the nearest position in its direction that is the end or has a backtrace no longer than its stop length (the start's for over, one less for out), passing only positions with a longer one |
| Traces.Move | test/system/mdb/test_step.cpp:219-233 | Repeated motion stays within the trace, keeps its direction and moves unless it is at the end it moves towards |
| Traces.MoveAdds | test/system/mdb/test_step.cpp:660-711 | A motion repeated a times and then b times, in either direction, is the motion repeated a+b times |
| Traces.OutRepeatedLeavesLevels | test/system/mdb/test_step.cpp:660-711 | Step out forward repeated n times from a frame stops at the end or on a frame at least n levels shallower |
| Traces.OutRepeatedReachesEnd | test/system/mdb/test_step.cpp:679-692 | Step out forward repeated more times than the frame's depth reaches the end |
| Traces.SingleForwardClamps | test/system/mdb/test_step.cpp:219-233 | n forward single steps from p land at min(p+n, N) |
| Traces.SingleBackwardClamps | test/system/mdb/test_step.cpp:449-503 | n backward single steps from p land at max(p-n, -1) |
| Traces.SingleRoundTrip | test/system/mdb/test_step.cpp:484-503 | Forward k then backward k returns to p when p+k does not pass the end |
| Traces.SingleRoundTripBackward | test/system/mdb/test_step.cpp:484-503 | Backward k then forward k returns to p when p-k does not pass the beginning; the test moves forward then back, and this reverse direction is the model's own inverse property |
| Traces.SingleForwardAdds | test/system/mdb/test_step.cpp:253-348 | Forward single steps compose additively |
| Traces.OverForwardSkipsSubtree | test/system/mdb/test_step.cpp:521-535 | Step over passes only deeper frames and stops at the end or at depth at most the start's |
| Traces.OutForwardLeaves | test/system/mdb/test_step.cpp:624-711 | Step out passes only frames at least as deep and stops at the end or on a shallower frame |
| Traces.FromStartRunsToEnd | test/system/mdb/test_step.cpp:505-519 | From before the first frame, step over and step out reach the end |
| Traces.OutOfTopLevelRunsToEnd | test/system/mdb/test_step.cpp:607-622 | From a depth-0 frame, step out reaches the end |
| Traces.OverRoundTrip | test/system/mdb/test_step.cpp:537-551 | Step over forward then backward returns to the start frame when the stop is at the same depth |
| Traces.OverRoundTripBackward | test/system/mdb/test_step.cpp:553-589 | Step over backward then forward returns to the start frame when the stop is at the same depth; the tests move forward then back, and this reverse direction is the model's own inverse property |
| Traces.OutBackwardFindsParent | test/system/mdb/test_step.cpp:723-735 | In a well-formed trace, step out backward from a nested frame lands on its parent, and every frame passed is at least as deep as the start |
| SourcePositions.SamePosition | test/unit/test_source_position.cpp:62-63 | Two positions are equal exactly when line and column are both equal |
| SourcePositions.ToStringExample | test/unit/test_source_position.cpp:65 | Position 1:2 renders as "1:2" |
| SourcePositions.ToString | test/unit/test_source_position.cpp:65 | The `line:column` rendering reads back as the same position, with a non-empty line number before the first ':' |
| SourcePositions.ToStringInjective | test/unit/test_source_position.cpp:65 | Two positions render the same exactly when they are equal |
| SourcePositions.ColonIndex | test/unit/test_source_position.cpp:65 | The result is the index of the first ':' or the length when there is none |
| Decimal.NatToString | test/unit/test_source_position.cpp:65 | The rendering of a number is a non-empty digit string without a leading zero, except for 0 itself |
| Decimal.DigitsValueOfNatToString | test/unit/test_source_position.cpp:65 | Reading back the decimal rendering of a number gives the number |
| Decimal.ParseIntOfIntToString | test/system/mdb/test_step.cpp:781-792 | Every integer survives rendering and parsing |
| Decimal.ParseInt | test/system/mdb/test_step.cpp:781-792 | A token parses exactly when it is an optional sign followed by digits, with the sign deciding the result's sign |
| Decimal.ParseIntSignedWithZeros | test/system/mdb/test_step.cpp:781-792 | A token of an optional "+" or "-", any leading zeros and the digits of n reads as n, negated exactly for "-" |
| Decimal.DigitsValueLeadingZeros | test/system/mdb/test_step.cpp:781-792 | Leading zeros do not change the value of a digit string |
| SourcePositions.PositionOf | test/unit/test_source_position.cpp:29-35 | The position at the end of a text is one line more than its breaks (a '\r', or a '\n' not completing "\r\n") and one column more than the characters after its last break |
| SourcePositions.ScanCounts | test/unit/test_source_position.cpp:29-35 | The character-by-character scan counts the breaks and the characters since the last one, and remembers whether the text ends in '\r' |
| SourcePositions.Advance | test/unit/test_source_position.cpp:37-50 | '\r' always starts a new line at column 1; '\n' starts one unless it follows '\r', when it completes the "\r\n" break; any other character moves one column right |
| SourcePositions.PositionOfEmpty | test/unit/test_source_position.cpp:67 | The empty text ends at 1:1 |
| SourcePositions.PositionOfNonBreak | test/unit/test_source_position.cpp:68-69 | A character that is not a break advances the column by one on the same line |
| SourcePositions.ScanWithinLine | test/unit/test_source_position.cpp:68-69 | Text without breaks keeps the line and advances the column by its length |
| SourcePositions.ScanAppend | test/unit/test_source_position.cpp:29-35 | Scanning a concatenation equals scanning the parts in turn |
| SourcePositions.ScanSeparator | test/unit/test_source_position.cpp:37-50 | "\n", "\r" and "\r\n" each move to column 1 of the next line |
| SourcePositions.PositionOfJoin | test/unit/test_source_position.cpp:67-70 | Break-free lines joined by any of the three separators end at (number of lines, last length + 1) |
| SourcePositions.SeparatorsAgree | test/unit/test_source_position.cpp:37-50 | Joining with "\n", "\r" or "\r\n" gives identical positions |
| SourcePositions.PositionExamples | test/unit/test_source_position.cpp:68-70 | "x" ends at 1:2, "ab" at 1:3, and "ab", break, "c" at 2:2 |

## Left out

- The evaluation engine that produces the trace. The trace and its outcome are inputs; no Fibonacci trace is built in.
- The order of memoization and instantiation events, which the tests accept in several orders. No property depends on it.
- Breakpoints. The pattern language and its matching are outside the modelled core, so `continue` runs to the terminal outcome.
- The program's storage of the trace when caching is disabled. The model keeps the whole trace and enforces the caching rule in `Mdb.Run`.
- Source ranges of frames, JSON output, the `(mdb)` prompt and the blank or whitespace command line.
- The dispatch of the words `over` and `out` after `step`. `Mdb.Command` receives the motion and the count token already separated.
- Decimal.ParseInt: counts are unbounded integers. No range limit of the program's integer parser is modelled.
- The metadebugger command record (a key plus a member-function pointer) and the clang preprocessor wrapper. Neither holds stepping or position logic.
- SourcePositions.PositionOf: the program reads a text as bytes, and the model reads it as characters, one `char` standing for one byte. A character whose encoding takes several bytes counts as one column here. The program counts one column per byte, so "é" in UTF-8 ends at 1:3 there and at 1:2 here.
- The two traces of one metaprogram, one for the default mode and one for full mode. The model takes the trace as an input and does not relate the two traces to each other.

=== FILE: decimal.dfy ===
/**
  Decimal rendering and parsing of integers: the column and line numbers of a
  source position are rendered in decimal, and the repeat count of the
  debugger's `step` commands is read from a decimal token.
 */
module Decimal {
  import opened Results

  predicate IsDigit(c: char) {
    '0' <= c <= '9'
  }

  predicate AllDigits(s: string) {
    forall i :: 0 <= i < |s| ==> IsDigit(s[i])
  }

  function DigitValue(c: char): (d: nat)
    requires IsDigit(c)
    ensures d < 10
  {
    c as int - '0' as int
  }

  function DigitChar(d: nat): (c: char)
    requires d < 10
    ensures IsDigit(c) && DigitValue(c) == d
  {
    ('0' as int + d) as char
  }

  /** The shortest decimal rendering of `n` (no sign, no leading zero). */
  function NatToString(n: nat): (s: string)
    ensures |s| > 0 && AllDigits(s)
    ensures s[0] == '0' ==> n == 0
    decreases n
  {
    if n < 10 then [DigitChar(n)] else NatToString(n / 10) + [DigitChar(n % 10)]
  }

  /** The value of a string of decimal digits, most significant first. */
  function DigitsValue(s: string): nat
    requires AllDigits(s)
    decreases |s|
  {
    if |s| == 0 then 0 else DigitsValue(s[..|s| - 1]) * 10 + DigitValue(s[|s| - 1])
  }

  /** A non-empty run of digits, and nothing else, denotes a natural number. */
  function ParseNat(s: string): (r: Option<nat>)
    ensures r.Some? <==> |s| > 0 && AllDigits(s)
  {
    if |s| > 0 && AllDigits(s) then Some(DigitsValue(s)) else None
  }

  predicate IsSign(c: char) {
    c == '-' || c == '+'
  }

  /** An optional sign followed by a non-empty run of digits. */
  function ParseInt(s: string): (r: Option<int>)
    ensures r.Some? <==> (|s| > 0 && AllDigits(s)) || (|s| > 1 && IsSign(s[0]) && AllDigits(s[1..]))
    ensures r.Some? && |s| > 0 && s[0] == '-' ==> r.value <= 0
    ensures r.Some? && |s| > 0 && s[0] != '-' ==> r.value >= 0
  {
    if |s| > 0 && IsSign(s[0]) then
      match ParseNat(s[1..])
      case None => None
      case Some(v) => var n: int := v; Some(if s[0] == '-' then -n else n)
    else
      match ParseNat(s)
      case None => None
      case Some(v) => var n: int := v; Some(n)
  }

  function IntToString(n: int): (s: string)
    ensures |s| > 0
    ensures s[0] == '-' <==> n < 0
  {
    if n < 0 then "-" + NatToString(-n) else NatToString(n)
  }

  /** Reading back the rendering of `n` gives `n`. */
  lemma {:induction false} DigitsValueOfNatToString(n: nat)
    ensures DigitsValue(NatToString(n)) == n
    decreases n
  {
    if n >= 10 {
      var a := NatToString(n / 10);
      var s := a + [DigitChar(n % 10)];
      assert s[..|s| - 1] == a;
      DigitsValueOfNatToString(n / 10);
    }
  }

  lemma ParseNatOfNatToString(n: nat)
    ensures ParseNat(NatToString(n)) == Some(n)
  {
    DigitsValueOfNatToString(n);
  }

  /** Every integer survives a rendering and a parse. */
  lemma ParseIntOfIntToString(n: int)
    ensures ParseInt(IntToString(n)) == Some(n)
  {
    if n < 0 {
      var s := IntToString(n);
      assert s[1..] == NatToString(-n);
      ParseNatOfNatToString(-n);
    } else {
      ParseNatOfNatToString(n);
    }
  }

  predicate AllZeros(s: string) {
    forall i :: 0 <= i < |s| ==> s[i] == '0'
  }

  /** Leading zeros do not change the value of a digit string. */
  lemma {:induction false} DigitsValueLeadingZeros(zeros: string, d: string)
    requires AllZeros(zeros) && AllDigits(d)
    ensures AllDigits(zeros + d)
    ensures DigitsValue(zeros + d) == DigitsValue(d)
    decreases |d|, |zeros|
  {
    var s := zeros + d;
    if |d| > 0 {
      var d' := d[..|d| - 1];
      assert s[..|s| - 1] == zeros + d';
      DigitsValueLeadingZeros(zeros, d');
    } else if |zeros| > 0 {
      assert s == zeros;
      assert zeros[..|zeros| - 1] + "" == zeros[..|zeros| - 1];
      DigitsValueLeadingZeros(zeros[..|zeros| - 1], "");
    }
  }

  /**
    A token made of an optional sign, any number of leading zeros and the
    decimal digits of `n` reads as `n`, negated exactly when the sign is '-'.
   */
  lemma ParseIntSignedWithZeros(sign: string, zeros: string, n: nat)
    requires sign == "" || sign == "+" || sign == "-"
    requires AllZeros(zeros)
    ensures ParseInt(sign + zeros + NatToString(n)) == Some(if sign == "-" then -(n as int) else n as int)
  {
    var d := NatToString(n);
    DigitsValueLeadingZeros(zeros, d);
    DigitsValueOfNatToString(n);
    var s := sign + zeros + d;
    if sign == "" {
      assert s == zeros + d;
      assert zeros + d != "" && (zeros + d)[|zeros|] == d[0];
    } else {
      assert s[0] == sign[0];
      assert s[1..] == zeros + d;
    }
  }
}

=== FILE: mdb.dfy ===
/**
  The metadebugger session: a fixed evaluation trace with its terminal
  outcome, a cursor over it, the caching flag and the display mode, and the
  `step`, `step over`, `step out` and `continue` commands. Every command
  returns the new session together with what the debugger displays.
 */
module Mdb {
  import opened Results
  import opened Traces
  import Decimal

  /** How the evaluation of the metaprogram ended: with its result type or with an error. */
  datatype Outcome = Finished(resultType: string) | Errored(message: string)

  /** Full mode displays frames without their event kind. */
  datatype Mode = Default | Full

  /** Where the debugger stands; `AtEnd` is the terminal outcome. */
  datatype Cursor = NotEvaluated | BeforeStart | At(index: nat) | AtEnd

  datatype Session = Session(trace: seq<Frame>, outcome: Outcome, cursor: Cursor, caching: bool, mode: Mode)

  /** One displayed item. */
  datatype Display =
    | ShowFrame(name: string, kind: Option<EventKind>)
    | RawText(text: string)
    | ShowType(typeName: string)
    | ShowError(message: string)

  datatype Response = Response(session: Session, output: seq<Display>)

  /** `step [n]`, `step over [n]` and `step out [n]` carry their count token unparsed; "" is no token. */
  datatype Command = Step(motion: Motion, countToken: string) | Continue

  const NotEvaluatedMessage := "Metaprogram not evaluated yet"
  const CachingRequiredMessage := "Error: Caching is disabled in the debugger and stepping backwards requires caching.\n"
  const FinishedText := "Metaprogram finished"
  const BeginningText := "Metaprogram reached the beginning"

  predicate Valid(s: Session) {
    s.cursor.At? ==> s.cursor.index < |s.trace|
  }

  predicate Evaluated(s: Session) {
    Valid(s) && s.cursor != NotEvaluated
  }

  /** The position of an evaluated session's cursor in its trace. */
  function Position(s: Session): (p: int)
    requires Evaluated(s)
    ensures IsPosition(s.trace, p)
  {
    match s.cursor
    case BeforeStart => -1
    case At(i) => i
    case AtEnd => |s.trace|
  }

  function CursorAt(t: seq<Frame>, p: int): (c: Cursor)
    requires IsPosition(t, p)
    ensures c != NotEvaluated
    ensures c.At? ==> c.index < |t|
  {
    if p == -1 then BeforeStart else if p == |t| then AtEnd else At(p)
  }

  function MoveTo(s: Session, p: int): (r: Session)
    requires IsPosition(s.trace, p)
    ensures Evaluated(r) && Position(r) == p
    ensures r.trace == s.trace && r.outcome == s.outcome && r.caching == s.caching && r.mode == s.mode
  {
    s.(cursor := CursorAt(s.trace, p))
  }

  function ShowFrameIn(f: Frame, mode: Mode): (d: Display)
    ensures d.ShowFrame? && d.name == f.name
    ensures d.kind.Some? <==> mode == Default
    ensures d.kind.Some? ==> d.kind.value == f.kind
  {
    ShowFrame(f.name, if mode == Full then None else Some(f.kind))
  }

  /** "Metaprogram finished" followed by the result type or the error. */
  function FinishedReport(o: Outcome): (out: seq<Display>)
    ensures |out| == 2 && out[0] == RawText(FinishedText)
    ensures o.Finished? ==> out[1] == ShowType(o.resultType)
    ensures o.Errored? ==> out[1] == ShowError(o.message)
  {
    [RawText(FinishedText), match o case Finished(ty) => ShowType(ty) case Errored(m) => ShowError(m)]
  }

  /**
    What is shown after a motion. After a real motion: the terminal report,
    the beginning notice or the frame reached. After a motion by 0: the frame
    the cursor is on, and nothing at either end.
   */
  function Report(s: Session, moved: bool): (out: seq<Display>)
    requires Evaluated(s)
    ensures |out| <= 2
    ensures out == [] <==> !moved && !s.cursor.At?
    ensures s.cursor.At? ==> out == [ShowFrameIn(s.trace[s.cursor.index], s.mode)]
    ensures moved && s.cursor == AtEnd ==> out == FinishedReport(s.outcome)
    ensures moved && s.cursor == BeforeStart ==> out == [RawText(BeginningText)]
  {
    match s.cursor
    case At(i) => [ShowFrameIn(s.trace[i], s.mode)]
    case AtEnd => if moved then FinishedReport(s.outcome) else []
    case BeforeStart => if moved then [RawText(BeginningText)] else []
  }

  /**
    A motion repeated |n| times: forward for a positive count, backward for a
    negative one. Backward motion needs caching, except from before the first
    frame, where it only reports the beginning again.
   */
  function Run(s: Session, m: Motion, n: int): (r: Response)
    requires Evaluated(s)
    ensures Evaluated(r.session)
    ensures r.session.trace == s.trace && r.session.outcome == s.outcome
    ensures r.session.caching == s.caching && r.session.mode == s.mode
    ensures n < 0 && !s.caching && s.cursor != BeforeStart
      <==> r.output == [ShowError(CachingRequiredMessage)]
    ensures n < 0 && !s.caching && s.cursor != BeforeStart ==> r.session == s
    ensures n == 0 ==> r.session == s
    ensures n > 0 ==> Position(s) <= Position(r.session)
    ensures n > 0 && s.cursor != AtEnd ==> Position(s) < Position(r.session)
    ensures !(n < 0 && !s.caching && s.cursor != BeforeStart) ==> r.output == Report(r.session, n != 0)
    ensures n < 0 && s.caching && s.cursor != BeforeStart ==> Position(r.session) < Position(s)
    ensures n < 0 && s.cursor == BeforeStart ==> r == Response(s, [RawText(BeginningText)])
  {
    if n < 0 && !s.caching && s.cursor != BeforeStart then
      Response(s, [ShowError(CachingRequiredMessage)])
    else
      var t := s.trace;
      var p := Position(s);
      var q := if n >= 0 then Move(t, m, Forward, p, n) else Move(t, m, Backward, p, -n);
      var s' := MoveTo(s, q);
      Response(s', Report(s', n != 0))
  }

  /** The count of a motion: 1 when absent, otherwise a decimal integer. */
  function ParseCount(token: string): (r: Result<int>)
    ensures token == "" ==> r == Ok(1)
    ensures token != "" ==> (r.Ok? <==> Decimal.ParseInt(token).Some?)
    ensures token != "" && r.Ok? ==> r.value == Decimal.ParseInt(token).value
    ensures r.Err? ==> r.message == "Error: Invalid integer: " + token + "\n"
  {
    if token == "" then Ok(1)
    else
      match Decimal.ParseInt(token)
      case Some(n) => Ok(n)
      case None => Err("Error: Invalid integer: " + token + "\n")
  }

  /** Executes one debugger command. */
  function Execute(s: Session, c: Command): (r: Response)
    requires Valid(s)
    ensures Valid(r.session)
    ensures s.cursor == NotEvaluated ==> r == Response(s, [ShowError(NotEvaluatedMessage)])
    ensures c.Step? && s.cursor != NotEvaluated && ParseCount(c.countToken).Err?
      ==> r == Response(s, [ShowError(ParseCount(c.countToken).message)])
    ensures c.Step? && s.cursor != NotEvaluated && ParseCount(c.countToken).Ok?
      ==> r == Run(s, c.motion, ParseCount(c.countToken).value)
    ensures c.Continue? && s.cursor != NotEvaluated
      ==> r.session == s.(cursor := AtEnd) && r.output == FinishedReport(s.outcome)
  {
    if s.cursor == NotEvaluated then
      Response(s, [ShowError(NotEvaluatedMessage)])
    else
      match c
      case Continue => Response(s.(cursor := AtEnd), FinishedReport(s.outcome))
      case Step(m, token) =>
        match ParseCount(token)
        case Err(e) => Response(s, [ShowError(e)])
        case Ok(n) => Run(s, m, n)
  }
}

=== FILE: mdb_properties.dfy ===
/**
  Properties of the metadebugger's commands that hold for every trace:
  round trips between forward and backward motion, clamping at both ends,
  the silent `step 0`, the sticky terminal outcome, the caching rule and
  where step over and step out stop.
 */
module MdbProperties {
  import opened Results
  import opened Traces
  import opened Mdb
  import Decimal

  /** The cursor of an evaluated session is the one its position names. */
  lemma MoveToOwnPosition(s: Session)
    requires Evaluated(s)
    ensures MoveTo(s, Position(s)) == s
  {
  }

  /** `step 0` leaves the session as it is and shows the current frame, or nothing at either end. */
  lemma StepZero(s: Session, m: Motion)
    requires Evaluated(s)
    ensures Run(s, m, 0).session == s
    ensures s.cursor.At? ==> Run(s, m, 0).output == [ShowFrameIn(s.trace[s.cursor.index], s.mode)]
    ensures !s.cursor.At? ==> Run(s, m, 0).output == []
  {
    MoveToOwnPosition(s);
  }

  /**
    Stepping forward past the terminal outcome clamps to it and reports it
    once, however large the count.
   */
  lemma StepForwardClampsAtEnd(s: Session, n: int)
    requires Evaluated(s) && n > 0 && Position(s) + n >= |s.trace|
    ensures Run(s, Single, n) == Response(s.(cursor := AtEnd), FinishedReport(s.outcome))
  {
    SingleForwardClamps(s.trace, Position(s), n);
  }

  /**
    Stepping backward past the first frame clamps to the position before it
    and reports the beginning rather than an error.
   */
  lemma StepBackwardClampsAtBeginning(s: Session, n: int)
    requires Evaluated(s) && n < 0 && Position(s) + n <= -1
    requires s.caching || s.cursor == BeforeStart
    ensures Run(s, Single, n) == Response(s.(cursor := BeforeStart), [RawText(BeginningText)])
  {
    SingleBackwardClamps(s.trace, Position(s), -n);
  }

  /**
    With caching, `step k` followed by `step -k` returns to the starting
    session and shows what a motion to it shows, whenever the forward steps
    did not run past the terminal outcome.
   */
  lemma StepRoundTrip(s: Session, k: int)
    requires Evaluated(s) && s.caching && k > 0 && Position(s) + k <= |s.trace|
    ensures Run(Run(s, Single, k).session, Single, -k) == Response(s, Report(s, true))
  {
    SingleRoundTrip(s.trace, Position(s), k);
    MoveToOwnPosition(s);
  }

  /** With caching, `step -k` followed by `step k` returns to the start unless the backward steps were clamped. */
  lemma StepBackRoundTrip(s: Session, k: int)
    requires Evaluated(s) && s.caching && k > 0 && Position(s) - k >= -1
    ensures Run(Run(s, Single, -k).session, Single, k) == Response(s, Report(s, true))
  {
    SingleRoundTripBackward(s.trace, Position(s), k);
    MoveToOwnPosition(s);
  }

  /** `step a` then `step b` ends where `step a+b` ends. */
  lemma ForwardStepsAdd(s: Session, a: int, b: int)
    requires Evaluated(s) && a >= 0 && b >= 0
    ensures Run(Run(s, Single, a).session, Single, b).session == Run(s, Single, a + b).session
  {
    CountsAdd(s, Single, a, b);
  }

  /**
    `step n`, `step over n` and `step out n` followed by the same command with
    a count of the same sign reach the session the summed count reaches.
   */
  lemma CountsAdd(s: Session, m: Motion, a: int, b: int)
    requires Evaluated(s) && ((a >= 0 && b >= 0) || (a <= 0 && b <= 0))
    ensures Run(Run(s, m, a).session, m, b).session == Run(s, m, a + b).session
  {
    var p := Position(s);
    if a >= 0 && b >= 0 {
      MoveAdds(s.trace, m, Forward, p, a, b);
    } else if s.caching || s.cursor == BeforeStart {
      MoveAdds(s.trace, m, Backward, p, -a, -b);
    }
  }

  /**
    The command `step out n` on a frame whose depth is below `n` leaves every
    enclosing frame and reports the terminal outcome.
   */
  lemma StepOutRepeatedFinishes(s: Session, n: nat)
    requires Evaluated(s) && s.cursor.At? && n > s.trace[s.cursor.index].depth
    ensures Execute(s, Step(Out, Decimal.IntToString(n)))
      == Response(s.(cursor := AtEnd), FinishedReport(s.outcome))
  {
    CountRoundTrip(n);
    OutRepeatedReachesEnd(s.trace, s.cursor.index, n);
  }

  /**
    The command `step out n` on a frame stops at the terminal outcome or on a
    frame at least `n` levels shallower.
   */
  lemma StepOutRepeatedLeavesLevels(s: Session, n: nat)
    requires Evaluated(s) && s.cursor.At?
    ensures var r := Execute(s, Step(Out, Decimal.IntToString(n))).session;
      r.cursor == AtEnd || (r.cursor.At? && r.trace[r.cursor.index].depth + n <= s.trace[s.cursor.index].depth)
  {
    CountRoundTrip(n);
    OutRepeatedLeavesLevels(s.trace, s.cursor.index, n);
  }

  /**
    Every forward `step`, `step over` or `step out`, with or without caching,
    shows the frame it stops on, or the terminal report when it reaches the end.
   */
  lemma ForwardShowsStop(s: Session, m: Motion, n: int)
    requires Evaluated(s) && n > 0
    ensures var r := Run(s, m, n);
      && (r.session.cursor.At? ==> r.output == [ShowFrameIn(s.trace[r.session.cursor.index], s.mode)])
      && (r.session.cursor == AtEnd ==> r.output == FinishedReport(s.outcome))
  {
  }

  /**
    Once at the terminal outcome, every forward motion stays there and
    reports the outcome again, the result type or the error alike.
   */
  lemma TerminalIsSticky(s: Session, m: Motion, n: int)
    requires Evaluated(s) && s.cursor == AtEnd && n > 0
    ensures Run(s, m, n) == Response(s, FinishedReport(s.outcome))
  {
  }

  /**
    `continue` followed by any forward step repeats the same two-part
    report: "Metaprogram finished" and then the result type or the error.
   */
  lemma ContinueThenStep(s: Session, c: Command)
    requires Evaluated(s)
    requires c.Continue? || (c.Step? && ParseCount(c.countToken).Ok? && ParseCount(c.countToken).value > 0)
    ensures Execute(Execute(s, Continue).session, c).output == FinishedReport(s.outcome)
    ensures Execute(s, Continue).output == FinishedReport(s.outcome)
  {
  }

  /** `continue` without breakpoints is a single step whose count reaches beyond the trace. */
  lemma ContinueIsStepToEnd(s: Session)
    requires Evaluated(s)
    ensures Execute(s, Continue) == Execute(s, Step(Single, Decimal.IntToString(|s.trace| + 1)))
  {
    Decimal.ParseIntOfIntToString(|s.trace| + 1);
    StepForwardClampsAtEnd(s, |s.trace| + 1);
  }

  /** Before anything is evaluated, every command reports that and changes nothing. */
  lemma NothingBeforeEvaluation(s: Session, c: Command)
    requires s.cursor == NotEvaluated
    ensures Execute(s, c).session == s
    ensures Execute(s, c).output == [ShowError(NotEvaluatedMessage)]
  {
  }

  /** A count token that is not an integer is reported by name and changes nothing. */
  lemma InvalidCountRejected(s: Session, m: Motion, token: string)
    requires Evaluated(s) && token != "" && Decimal.ParseInt(token).None?
    ensures Execute(s, Step(m, token)) == Response(s, [ShowError("Error: Invalid integer: " + token + "\n")])
  {
  }

  lemma GarbageCountExample(s: Session)
    requires Evaluated(s)
    ensures Execute(s, Step(Single, "asd")) == Response(s, [ShowError("Error: Invalid integer: asd\n")])
  {
    assert "asd"[0] == 'a';
    assert !Decimal.AllDigits("asd") && !Decimal.IsSign('a');
    InvalidCountRejected(s, Single, "asd");
    assert "Error: Invalid integer: " + "asd" + "\n" == "Error: Invalid integer: asd\n";
  }

  /** Every rendered integer is accepted as a count and read back as itself. */
  lemma CountRoundTrip(n: int)
    ensures ParseCount(Decimal.IntToString(n)) == Ok(n)
  {
    Decimal.ParseIntOfIntToString(n);
  }

  /**
    Without caching, once the cursor has moved forward from the beginning,
    step, step over and step out backward all fail with the caching error
    and leave the session unchanged.
   */
  lemma NoBackwardWithoutCaching(s: Session, forward: Motion, k: int, backward: Motion, j: int)
    requires Evaluated(s) && !s.caching && s.cursor == BeforeStart && k > 0 && j < 0
    ensures var s1 := Run(s, forward, k).session;
      Run(s1, backward, j) == Response(s1, [ShowError(CachingRequiredMessage)])
  {
  }

  /** From the position before the first frame, any backward motion only reports the beginning, with or without caching. */
  lemma BackwardAtBeginning(s: Session, m: Motion, n: int)
    requires Evaluated(s) && s.cursor == BeforeStart && n < 0
    ensures Run(s, m, n) == Response(s, [RawText(BeginningText)])
  {
  }

  /** `step out -1` typed right after the debugger starts reports the beginning, with or without caching. */
  lemma OutMinusOneAtStart(s: Session)
    requires Evaluated(s) && s.cursor == BeforeStart
    ensures Execute(s, Step(Out, "-1")) == Response(s, [RawText(BeginningText)])
  {
    assert "-1"[0] == '-' && "-1"[1..] == "1";
    assert Decimal.ParseInt("-1") == Some(-1);
  }

  /** From the position before the first frame, step over and step out run to the terminal outcome. */
  lemma OverOrOutFromStartFinishes(s: Session, m: Motion, n: int)
    requires Evaluated(s) && s.cursor == BeforeStart && m != Single && n > 0
    ensures Run(s, m, n) == Response(s.(cursor := AtEnd), FinishedReport(s.outcome))
  {
    FromStartRunsToEnd(s.trace, m, n);
  }

  /** From a frame at depth 0, step out runs to the terminal outcome. */
  lemma OutOfTopLevelFinishes(s: Session, n: int)
    requires Evaluated(s) && s.cursor.At? && s.trace[s.cursor.index].depth == 0 && n > 0
    ensures Run(s, Out, n) == Response(s.(cursor := AtEnd), FinishedReport(s.outcome))
  {
    OutOfTopLevelRunsToEnd(s.trace, s.cursor.index, n);
  }

  /**
    Step over from a frame stops at the terminal outcome or on a later frame
    no deeper than the starting one, never inside the skipped subtree.
   */
  lemma OverSkipsSubtree(s: Session)
    requires Evaluated(s) && s.cursor.At?
    ensures var r := Run(s, Over, 1).session;
      && (r.cursor == AtEnd || (r.cursor.At? && r.cursor.index > s.cursor.index))
      && (r.cursor.At? ==> r.trace[r.cursor.index].depth <= s.trace[s.cursor.index].depth)
      && forall q :: s.cursor.index < q < Position(r) ==> s.trace[q].depth > s.trace[s.cursor.index].depth
  {
    OverForwardSkipsSubtree(s.trace, s.cursor.index);
  }

  /** Step out from a frame stops at the terminal outcome or on a later, shallower frame. */
  lemma OutLeavesFrame(s: Session)
    requires Evaluated(s) && s.cursor.At?
    ensures var r := Run(s, Out, 1).session;
      && (r.cursor == AtEnd || (r.cursor.At? && r.cursor.index > s.cursor.index))
      && (r.cursor.At? ==> r.trace[r.cursor.index].depth < s.trace[s.cursor.index].depth)
      && forall q :: s.cursor.index < q < Position(r) ==> s.trace[q].depth >= s.trace[s.cursor.index].depth
  {
    OutForwardLeaves(s.trace, s.cursor.index);
  }

  /**
    With caching, `step over` followed by `step over -1` returns to the
    starting frame whenever step over stopped on a frame at the same depth.
   */
  lemma OverRoundTripSession(s: Session)
    requires Evaluated(s) && s.caching && s.cursor.At?
    requires var r := Run(s, Over, 1).session;
      r.cursor.At? && r.trace[r.cursor.index].depth == s.trace[s.cursor.index].depth
    ensures Run(Run(s, Over, 1).session, Over, -1) == Response(s, Report(s, true))
  {
    OverRoundTrip(s.trace, s.cursor.index);
  }

  /**
    In a well-formed trace with caching, `step out -1` from a nested frame
    shows its parent: the nearest earlier frame one level shallower.
   */
  lemma OutBackwardShowsParent(s: Session)
    requires Evaluated(s) && s.caching && WellFormed(s.trace)
    requires s.cursor.At? && s.trace[s.cursor.index].depth > 0
    ensures var r := Run(s, Out, -1);
      && r.session.cursor.At?
      && r.session.cursor.index < s.cursor.index
      && r.session.trace[r.session.cursor.index].depth == s.trace[s.cursor.index].depth - 1
      && (forall q :: r.session.cursor.index < q < s.cursor.index ==> s.trace[q].depth >= s.trace[s.cursor.index].depth)
      && r.output == [ShowFrameIn(s.trace[r.session.cursor.index], s.mode)]
  {
    OutBackwardFindsParent(s.trace, s.cursor.index);
  }

  /** With caching, `step out -1` from a frame at depth 0 reports the beginning. */
  lemma OutBackwardFromTopLevel(s: Session)
    requires Evaluated(s) && s.caching && s.cursor.At? && s.trace[s.cursor.index].depth == 0
    ensures Run(s, Out, -1) == Response(s.(cursor := BeforeStart), [RawText(BeginningText)])
  {
    OutBackwardOfTopLevel(s.trace, s.cursor.index);
  }

  /**
    A trace of a single event: the first `step` shows that event and the
    next one reports the terminal outcome.
   */
  lemma SingleEventTrace(s: Session)
    requires Evaluated(s) && |s.trace| == 1 && s.cursor == BeforeStart
    ensures var r1 := Execute(s, Step(Single, ""));
      && r1.output == [ShowFrameIn(s.trace[0], s.mode)]
      && Execute(r1.session, Step(Single, "")).output == FinishedReport(s.outcome)
  {
  }

  /**
    With caching, from the beginning: `step 1` then `step -1` reports the
    beginning, and `step 2` then `step -1` shows the first frame again.
   */
  lemma BackToFirstFrame(s: Session)
    requires Evaluated(s) && s.caching && s.cursor == BeforeStart && |s.trace| >= 2
    ensures Run(Run(s, Single, 1).session, Single, -1).output == [RawText(BeginningText)]
    ensures Run(Run(s, Single, 2).session, Single, -1).output == [ShowFrameIn(s.trace[0], s.mode)]
  {
    StepRoundTrip(s, 1);
    SingleForwardClamps(s.trace, -1, 2);
    SingleBackwardClamps(s.trace, 1, 1);
  }
}

=== FILE: results.dfy ===
/** Optional values and value-or-error results shared by the other modules. */
module Results {

  datatype Option<+T> = None | Some(value: T)

  /** Either a value or the error text the debugger shows instead. */
  datatype Result<+T> = Ok(value: T) | Err(message: string)
}

=== FILE: source_position.dfy ===
/**
  Source positions: a (line, column) pair, both counted from 1, its textual
  rendering `line:column`, and the position reached at the end of a text.

  Three line-break conventions are recognised and treated alike: "\n", "\r"
  and the pair "\r\n", which counts as a single break.
 */
module SourcePositions {
  import opened Results
  import Decimal

  datatype SourcePosition = SourcePosition(line: nat, column: nat)

  /** Two positions are the same exactly when line and column agree. */
  function SamePosition(a: SourcePosition, b: SourcePosition): (r: bool)
    ensures r <==> a == b
  {
    a.line == b.line && a.column == b.column
  }

  /** Renders a position as `line:column`; `Parse` reads the rendering back. */
  function ToString(p: SourcePosition): (s: string)
    ensures Parse(s) == Some(p)
    ensures s[ColonIndex(s)] == ':' && ColonIndex(s) > 0
  {
    ParseRendering(p.line, p.column);
    Decimal.NatToString(p.line) + ":" + Decimal.NatToString(p.column)
  }

  /** Index of the first ':' in `s`, or |s| when there is none. */
  function ColonIndex(s: string): (k: nat)
    ensures k <= |s|
    ensures k < |s| ==> s[k] == ':'
    ensures forall i :: 0 <= i < k ==> s[i] != ':'
    decreases |s|
  {
    if |s| == 0 then 0 else if s[0] == ':' then 0 else 1 + ColonIndex(s[1..])
  }

  /** Reads a rendering `line:column` back; the partner of `ToString`. */
  function Parse(s: string): (r: Option<SourcePosition>)
    ensures r.Some? ==> ':' in s
  {
    var k := ColonIndex(s);
    if k == |s| then None
    else
      match (Decimal.ParseNat(s[..k]), Decimal.ParseNat(s[k + 1..]))
      case (Some(l), Some(c)) => Some(SourcePosition(l, c))
      case _ => None
  }

  /** Two decimal numbers joined by ':' read back as the position they denote. */
  lemma ParseRendering(line: nat, column: nat)
    ensures var s := Decimal.NatToString(line) + ":" + Decimal.NatToString(column);
      && ColonIndex(s) == |Decimal.NatToString(line)|
      && Parse(s) == Some(SourcePosition(line, column))
  {
    var a := Decimal.NatToString(line);
    var b := Decimal.NatToString(column);
    var s := a + ":" + b;
    var k := ColonIndex(s);
    assert s[|a|] == ':';
    assert forall i :: 0 <= i < |a| ==> s[i] == a[i];
    assert k == |a|;
    assert s[..k] == a;
    assert s[k + 1..] == b;
    Decimal.ParseNatOfNatToString(line);
    Decimal.ParseNatOfNatToString(column);
  }

  /** Distinct positions render differently. */
  lemma ToStringInjective(p: SourcePosition, q: SourcePosition)
    ensures ToString(p) == ToString(q) <==> p == q
  {
  }

  lemma ToStringExample()
    ensures ToString(SourcePosition(1, 2)) == "1:2"
  {
    assert Decimal.NatToString(1) == "1";
    assert Decimal.NatToString(2) == "2";
  }

  predicate IsBreak(c: char) {
    c == '\n' || c == '\r'
  }

  /** Where a scan of a text stands: the position and whether the last character was '\r'. */
  datatype ScanState = ScanState(line: nat, column: nat, afterCr: bool)

  const Start := ScanState(1, 1, false)

  /** One character: '\r' always breaks, '\n' breaks unless it completes "\r\n". */
  function Advance(st: ScanState, c: char): (r: ScanState)
    ensures r.afterCr <==> c == '\r'
    ensures !IsBreak(c) ==> r == ScanState(st.line, st.column + 1, false)
    ensures c == '\n' && st.afterCr ==> r.line == st.line && r.column == st.column
    ensures c == '\r' || (c == '\n' && !st.afterCr) ==> r.line == st.line + 1 && r.column == 1
  {
    if c == '\r' then ScanState(st.line + 1, 1, true)
    else if c == '\n' then
      if st.afterCr then st.(afterCr := false) else ScanState(st.line + 1, 1, false)
    else ScanState(st.line, st.column + 1, false)
  }

  /** Left fold of `Advance` over a text. */
  function Scan(st: ScanState, s: string): ScanState
    decreases |s|
  {
    if |s| == 0 then st else Advance(Scan(st, s[..|s| - 1]), s[|s| - 1])
  }

  /**
    The position just after the end of `s`: one line more than the breaks in
    `s`, and one column more than the characters after the last break.
   */
  function PositionOf(s: string): (p: SourcePosition)
    ensures p == SourcePosition(1 + CountBreaks(s), 1 + LastLineLength(s))
  {
    ScanCounts(s);
    var st := Scan(Start, s);
    SourcePosition(st.line, st.column)
  }

  /** A break at index `i`: a '\r', or a '\n' that does not complete "\r\n". */
  predicate BreakAt(s: string, i: nat)
    requires i < |s|
  {
    s[i] == '\r' || (s[i] == '\n' && (i == 0 || s[i - 1] != '\r'))
  }

  /** The number of indices of `s` holding a break. */
  function CountBreaks(s: string): nat
    decreases |s|
  {
    if |s| == 0 then 0 else CountBreaks(s[..|s| - 1]) + (if BreakAt(s, |s| - 1) then 1 else 0)
  }

  /** The length of the longest break-free suffix of `s`. */
  function LastLineLength(s: string): (n: nat)
    ensures n <= |s|
    ensures forall i :: |s| - n <= i < |s| ==> !IsBreak(s[i])
    ensures n < |s| ==> IsBreak(s[|s| - n - 1])
    decreases |s|
  {
    if |s| == 0 || IsBreak(s[|s| - 1]) then 0
    else
      var init := s[..|s| - 1];
      var m := LastLineLength(init);
      assert forall i :: 0 <= i < |init| ==> init[i] == s[i];
      m + 1
  }

  /** The scan counts the breaks and the characters since the last one, and remembers a trailing '\r'. */
  lemma {:induction false} ScanCounts(s: string)
    ensures Scan(Start, s).line == 1 + CountBreaks(s)
    ensures Scan(Start, s).column == 1 + LastLineLength(s)
    ensures Scan(Start, s).afterCr <==> |s| > 0 && s[|s| - 1] == '\r'
    decreases |s|
  {
    if |s| > 0 {
      var s' := s[..|s| - 1];
      var c := s[|s| - 1];
      ScanCounts(s');
      var st := Scan(Start, s');
      assert Scan(Start, s) == Advance(st, c);
      assert CountBreaks(s) == CountBreaks(s') + (if BreakAt(s, |s| - 1) then 1 else 0);
      if c == '\n' && st.afterCr {
        assert s'[|s'| - 1] == '\r';
        assert LastLineLength(s') == 0;
        assert !BreakAt(s, |s| - 1);
      } else if !IsBreak(c) {
        assert LastLineLength(s) == LastLineLength(s') + 1;
      }
    }
  }

  /** Scanning a concatenation is scanning its parts one after the other. */
  lemma {:induction false} ScanAppend(st: ScanState, a: string, b: string)
    ensures Scan(st, a + b) == Scan(Scan(st, a), b)
    decreases |b|
  {
    if |b| > 0 {
      var b' := b[..|b| - 1];
      assert (a + b)[..|a + b| - 1] == a + b';
      ScanAppend(st, a, b');
    } else {
      assert a + b == a;
    }
  }

  predicate NoBreaks(s: string) {
    forall i :: 0 <= i < |s| ==> !IsBreak(s[i])
  }

  /** A text without breaks moves the column by its length and stays on the line. */
  lemma {:induction false} ScanWithinLine(st: ScanState, s: string)
    requires NoBreaks(s)
    ensures Scan(st, s).line == st.line
    ensures Scan(st, s).column == st.column + |s|
    ensures Scan(st, s).afterCr <==> st.afterCr && |s| == 0
    decreases |s|
  {
    if |s| > 0 {
      ScanWithinLine(st, s[..|s| - 1]);
    }
  }

  lemma PositionOfEmpty()
    ensures PositionOf("") == SourcePosition(1, 1)
  {
  }

  /** Each character other than a break advances the column by one on the same line. */
  lemma PositionOfNonBreak(s: string, c: char)
    requires !IsBreak(c)
    ensures PositionOf(s + [c]).line == PositionOf(s).line
    ensures PositionOf(s + [c]).column == PositionOf(s).column + 1
  {
    assert (s + [c])[..|s|] == s;
  }

  /** A line-break separator moves to column 1 of the next line. */
  predicate IsSeparator(sep: string) {
    sep == "\n" || sep == "\r" || sep == "\r\n"
  }

  /** A separator starts a new line, except that "\n" right after a '\r' only completes "\r\n". */
  lemma ScanSeparator(st: ScanState, sep: string)
    requires IsSeparator(sep)
    requires sep == "\n" ==> !st.afterCr
    ensures Scan(st, sep).line == st.line + 1
    ensures Scan(st, sep).column == 1
    ensures Scan(st, sep).afterCr <==> sep == "\r"
  {
    if sep == "\r\n" {
      assert sep[..1] == "\r";
      assert sep[..1][..0] == "";
    } else {
      assert sep[..0] == "";
    }
  }

  /** The lines of a text joined with a separator, as `boost::algorithm::join` does. */
  function Join(lines: seq<string>, sep: string): string
    decreases |lines|
  {
    if |lines| == 0 then ""
    else if |lines| == 1 then lines[0]
    else Join(lines[..|lines| - 1], sep) + sep + lines[|lines| - 1]
  }

  predicate AllLinesWithoutBreaks(lines: seq<string>) {
    forall i :: 0 <= i < |lines| ==> NoBreaks(lines[i])
  }

  /** The position after the given lines: the number of lines, one past the last line's length. */
  function EndOfLines(lines: seq<string>): SourcePosition {
    if |lines| == 0 then SourcePosition(1, 1)
    else SourcePosition(|lines|, |lines[|lines| - 1]| + 1)
  }

  lemma {:induction false} ScanJoin(lines: seq<string>, sep: string)
    requires IsSeparator(sep) && AllLinesWithoutBreaks(lines)
    ensures Scan(Start, Join(lines, sep)).line == EndOfLines(lines).line
    ensures Scan(Start, Join(lines, sep)).column == EndOfLines(lines).column
    ensures Scan(Start, Join(lines, sep)).afterCr ==> sep == "\r"
    decreases |lines|
  {
    if |lines| == 1 {
      ScanWithinLine(Start, lines[0]);
    } else if |lines| > 1 {
      var init := lines[..|lines| - 1];
      var last := lines[|lines| - 1];
      ScanJoin(init, sep);
      var st0 := Scan(Start, Join(init, sep));
      ScanAppend(Start, Join(init, sep), sep);
      ScanSeparator(st0, sep);
      var st1 := Scan(st0, sep);
      ScanAppend(Start, Join(init, sep) + sep, last);
      ScanWithinLine(st1, last);
    }
  }

  /**
    The position at the end of lines joined by a break is the number of lines
    and one past the last line's length, whichever convention separates them.
   */
  lemma PositionOfJoin(lines: seq<string>, sep: string)
    requires IsSeparator(sep) && AllLinesWithoutBreaks(lines)
    ensures PositionOf(Join(lines, sep)) == EndOfLines(lines)
  {
    ScanJoin(lines, sep);
  }

  /** "\n", "\r" and "\r\n" yield identical positions. */
  lemma SeparatorsAgree(lines: seq<string>)
    requires AllLinesWithoutBreaks(lines)
    ensures PositionOf(Join(lines, "\n")) == PositionOf(Join(lines, "\r"))
    ensures PositionOf(Join(lines, "\r")) == PositionOf(Join(lines, "\r\n"))
  {
    PositionOfJoin(lines, "\n");
    PositionOfJoin(lines, "\r");
    PositionOfJoin(lines, "\r\n");
  }

  /** The concrete cases: "x" is at 1:2, "ab" at 1:3 and "ab", break, "c" at 2:2. */
  lemma PositionExamples()
    ensures PositionOf(Join(["x"], "\n")) == SourcePosition(1, 2)
    ensures PositionOf(Join(["ab"], "\r")) == SourcePosition(1, 3)
    ensures PositionOf(Join(["ab", "c"], "\r\n")) == SourcePosition(2, 2)
  {
    PositionOfJoin(["x"], "\n");
    PositionOfJoin(["ab"], "\r");
    PositionOfJoin(["ab", "c"], "\r\n");
  }
}

=== FILE: trace.dfy ===
/**
  The evaluation trace of a metaprogram and the motions of the metadebugger
  over it.

  A trace is the finite sequence of frames the evaluation engine produced.
  A position in a trace of N frames is an integer from -1 to N: -1 stands
  before the first frame, 0 .. N-1 are the frames and N is the terminal
  outcome ("Metaprogram finished"). Each position has a backtrace length:
  one more than the frame's depth on a frame, 0 at either end.

  Step over repeats single steps until the backtrace is no longer than where
  it began; step out repeats them until it is shorter. Both stop at the end
  they move towards.
 */
module Traces {

  datatype EventKind =
    | TemplateInstantiation
    | Memoization
    | NonTemplateType
    | DeducedTemplateArgumentSubstitution

  datatype Frame = Frame(name: string, kind: EventKind, depth: nat)

  /**
    A trace the engine can produce: it starts at depth 0 and each frame is at
    most one level deeper than the one before it (it may return any number of
    levels at once).
   */
  predicate WellFormed(t: seq<Frame>) {
    && (|t| > 0 ==> t[0].depth == 0)
    && forall k :: 0 < k < |t| ==> t[k].depth <= t[k - 1].depth + 1
  }

  predicate IsPosition(t: seq<Frame>, p: int) {
    -1 <= p <= |t|
  }

  function BacktraceLength(t: seq<Frame>, p: int): nat
    requires IsPosition(t, p)
  {
    if 0 <= p < |t| then t[p].depth + 1 else 0
  }

  datatype Direction = Forward | Backward

  /** The terminal outcome ends forward motion; the position before the first frame ends backward motion. */
  predicate AtEndpoint(t: seq<Frame>, dir: Direction, p: int) {
    if dir == Forward then p == |t| else p == -1
  }

  /** The first position after `p` that is the terminal outcome or has a backtrace of at most `d`. */
  function SeekForward(t: seq<Frame>, p: int, d: int): (r: int)
    requires -1 <= p < |t|
    ensures p < r <= |t|
    ensures r == |t| || BacktraceLength(t, r) <= d
    ensures forall q :: p < q < r ==> BacktraceLength(t, q) > d
    decreases |t| - p
  {
    if p + 1 == |t| || BacktraceLength(t, p + 1) <= d then p + 1 else SeekForward(t, p + 1, d)
  }

  /** The last position before `p` that is before the first frame or has a backtrace of at most `d`. */
  function SeekBackward(t: seq<Frame>, p: int, d: int): (r: int)
    requires -1 < p <= |t|
    ensures -1 <= r < p
    ensures r == -1 || BacktraceLength(t, r) <= d
    ensures forall q :: r < q < p ==> BacktraceLength(t, q) > d
    decreases p
  {
    if p - 1 == -1 || BacktraceLength(t, p - 1) <= d then p - 1 else SeekBackward(t, p - 1, d)
  }

  function Seek(t: seq<Frame>, dir: Direction, p: int, d: int): (r: int)
    requires IsPosition(t, p) && !AtEndpoint(t, dir, p)
    ensures IsPosition(t, r)
    ensures AtEndpoint(t, dir, r) || BacktraceLength(t, r) <= d
    ensures dir == Forward ==> p < r && forall q :: p < q < r ==> BacktraceLength(t, q) > d
    ensures dir == Backward ==> r < p && forall q :: r < q < p ==> BacktraceLength(t, q) > d
  {
    if dir == Forward then SeekForward(t, p, d) else SeekBackward(t, p, d)
  }

  datatype Motion = Single | Over | Out

  /**
    The backtrace length a motion stops at or below: step over stops where
    the backtrace is no longer than at the start, step out where it is
    shorter.
   */
  function StopLength(t: seq<Frame>, m: Motion, p: int): int
    requires IsPosition(t, p) && m != Single
  {
    if m == Over then BacktraceLength(t, p) else BacktraceLength(t, p) - 1
  }

  /**
    One repetition of a motion from a position that is not at the end it
    moves towards: the next position for a single step; for step over and
    step out, the nearest position in that direction that is that end or
    whose backtrace length is at most the motion's stop length.
   */
  function MoveOnce(t: seq<Frame>, m: Motion, dir: Direction, p: int): (r: int)
    requires IsPosition(t, p) && !AtEndpoint(t, dir, p)
    ensures IsPosition(t, r)
    ensures dir == Forward ==> p < r
    ensures dir == Backward ==> r < p
    ensures m == Single ==> r == p + 1 || r == p - 1
    ensures m != Single ==> AtEndpoint(t, dir, r) || BacktraceLength(t, r) <= StopLength(t, m, p)
    ensures m != Single && dir == Forward ==> forall q :: p < q < r ==> BacktraceLength(t, q) > StopLength(t, m, p)
    ensures m != Single && dir == Backward ==> forall q :: r < q < p ==> BacktraceLength(t, q) > StopLength(t, m, p)
  {
    match m
    case Single => if dir == Forward then p + 1 else p - 1
    case Over => Seek(t, dir, p, BacktraceLength(t, p))
    case Out => Seek(t, dir, p, BacktraceLength(t, p) - 1)
  }

  /** `n` repetitions of a motion, stopping early at the end it moves towards. */
  function Move(t: seq<Frame>, m: Motion, dir: Direction, p: int, n: nat): (r: int)
    requires IsPosition(t, p)
    ensures IsPosition(t, r)
    ensures dir == Forward ==> p <= r
    ensures dir == Backward ==> r <= p
    ensures n > 0 && !AtEndpoint(t, dir, p) ==> r != p
    decreases n
  {
    if n == 0 || AtEndpoint(t, dir, p) then p else Move(t, m, dir, MoveOnce(t, m, dir, p), n - 1)
  }

  function Min(a: int, b: int): int {
    if a <= b then a else b
  }

  function Max(a: int, b: int): int {
    if a <= b then b else a
  }

  /** A motion repeated `a` times and then `b` times is the motion repeated `a + b` times. */
  lemma {:induction false} MoveAdds(t: seq<Frame>, m: Motion, dir: Direction, p: int, a: nat, b: nat)
    requires IsPosition(t, p)
    ensures Move(t, m, dir, Move(t, m, dir, p, a), b) == Move(t, m, dir, p, a + b)
    decreases a
  {
    if a > 0 && !AtEndpoint(t, dir, p) {
      MoveAdds(t, m, dir, MoveOnce(t, m, dir, p), a - 1, b);
    } else if a > 0 {
      assert Move(t, m, dir, p, a) == p;
      assert Move(t, m, dir, p, b) == p && Move(t, m, dir, p, a + b) == p;
    }
  }

  /**
    Step out forward repeated `n` times from a frame leaves `n` levels: it
    stops at the terminal outcome or on a frame at least `n` levels shallower.
   */
  lemma {:induction false} OutRepeatedLeavesLevels(t: seq<Frame>, p: int, n: nat)
    requires 0 <= p < |t|
    ensures var r := Move(t, Out, Forward, p, n);
      r == |t| || (p <= r < |t| && t[r].depth + n <= t[p].depth)
    decreases n
  {
    if n > 0 {
      var r := MoveOnce(t, Out, Forward, p);
      assert r == |t| || BacktraceLength(t, r) <= BacktraceLength(t, p) - 1;
      if r < |t| {
        OutRepeatedLeavesLevels(t, r, n - 1);
      }
    }
  }

  /** Step out forward repeated more times than a frame's depth runs to the terminal outcome. */
  lemma OutRepeatedReachesEnd(t: seq<Frame>, p: int, n: nat)
    requires 0 <= p < |t| && n > t[p].depth
    ensures Move(t, Out, Forward, p, n) == |t|
  {
    OutRepeatedLeavesLevels(t, p, n);
  }

  /** `n` single steps forward advance by `n`, clamped at the terminal outcome. */
  lemma {:induction false} SingleForwardClamps(t: seq<Frame>, p: int, n: nat)
    requires IsPosition(t, p)
    ensures Move(t, Single, Forward, p, n) == Min(p + n, |t|)
    decreases n
  {
    if n > 0 && p < |t| {
      SingleForwardClamps(t, p + 1, n - 1);
    }
  }

  /** `n` single steps backward retreat by `n`, clamped before the first frame. */
  lemma {:induction false} SingleBackwardClamps(t: seq<Frame>, p: int, n: nat)
    requires IsPosition(t, p)
    ensures Move(t, Single, Backward, p, n) == Max(p - n, -1)
    decreases n
  {
    if n > 0 && p > -1 {
      SingleBackwardClamps(t, p - 1, n - 1);
    }
  }

  /** Stepping forward `k` and back `k` returns where it started unless the forward steps were clamped. */
  lemma SingleRoundTrip(t: seq<Frame>, p: int, k: nat)
    requires IsPosition(t, p) && p + k <= |t|
    ensures Move(t, Single, Backward, Move(t, Single, Forward, p, k), k) == p
  {
    SingleForwardClamps(t, p, k);
    SingleBackwardClamps(t, p + k, k);
  }

  /** Stepping back `k` and forward `k` returns where it started unless the backward steps were clamped. */
  lemma SingleRoundTripBackward(t: seq<Frame>, p: int, k: nat)
    requires IsPosition(t, p) && p - k >= -1
    ensures Move(t, Single, Forward, Move(t, Single, Backward, p, k), k) == p
  {
    SingleBackwardClamps(t, p, k);
    SingleForwardClamps(t, p - k, k);
  }

  /** Consecutive forward steps add up. */
  lemma SingleForwardAdds(t: seq<Frame>, p: int, a: nat, b: nat)
    requires IsPosition(t, p)
    ensures Move(t, Single, Forward, Move(t, Single, Forward, p, a), b) == Move(t, Single, Forward, p, a + b)
  {
    MoveAdds(t, Single, Forward, p, a, b);
  }

  /**
    Step over forward from a frame skips the frame's whole subtree: every
    position passed over is deeper than the frame, and it stops at the
    terminal outcome or at a frame no deeper than where it began.
   */
  lemma OverForwardSkipsSubtree(t: seq<Frame>, p: int)
    requires 0 <= p < |t|
    ensures var r := Move(t, Over, Forward, p, 1);
      && p < r
      && (r == |t| || t[r].depth <= t[p].depth)
      && forall q :: p < q < r ==> t[q].depth > t[p].depth
  {
    var r := Move(t, Over, Forward, p, 1);
    assert r == SeekForward(t, p, BacktraceLength(t, p));
    forall q | p < q < r
      ensures t[q].depth > t[p].depth
    {
      assert BacktraceLength(t, q) > BacktraceLength(t, p);
    }
  }

  /** Step out forward stops at the terminal outcome or at a frame shallower than where it began. */
  lemma OutForwardLeaves(t: seq<Frame>, p: int)
    requires 0 <= p < |t|
    ensures var r := Move(t, Out, Forward, p, 1);
      && p < r
      && (r == |t| || t[r].depth < t[p].depth)
      && forall q :: p < q < r ==> t[q].depth >= t[p].depth
  {
    var r := Move(t, Out, Forward, p, 1);
    assert r == SeekForward(t, p, BacktraceLength(t, p) - 1);
    forall q | p < q < r
      ensures t[q].depth >= t[p].depth
    {
      assert BacktraceLength(t, q) > BacktraceLength(t, p) - 1;
    }
  }

  /** From before the first frame, step over and step out run to the terminal outcome. */
  lemma {:induction false} FromStartRunsToEnd(t: seq<Frame>, m: Motion, n: nat)
    requires m != Single && n > 0
    ensures Move(t, m, Forward, -1, n) == |t|
  {
    var r := MoveOnce(t, m, Forward, -1);
    assert r < |t| ==> BacktraceLength(t, r) >= 1;
  }

  /** From a frame at depth 0, step out runs to the terminal outcome. */
  lemma {:induction false} OutOfTopLevelRunsToEnd(t: seq<Frame>, p: int, n: nat)
    requires 0 <= p < |t| && t[p].depth == 0 && n > 0
    ensures Move(t, Out, Forward, p, n) == |t|
  {
    var r := MoveOnce(t, Out, Forward, p);
    assert r < |t| ==> BacktraceLength(t, r) >= 1;
  }

  /**
    Step over forward followed by step over backward returns to the starting
    frame whenever the forward motion stopped on a frame at the same depth.
   */
  lemma OverRoundTrip(t: seq<Frame>, p: int)
    requires 0 <= p < |t|
    requires var r := Move(t, Over, Forward, p, 1); r < |t| && t[r].depth == t[p].depth
    ensures Move(t, Over, Backward, Move(t, Over, Forward, p, 1), 1) == p
  {
    var r := Move(t, Over, Forward, p, 1);
    var d := BacktraceLength(t, p);
    assert r == SeekForward(t, p, d);
    var b := SeekBackward(t, r, BacktraceLength(t, r));
    assert Move(t, Over, Backward, r, 1) == b;
    assert BacktraceLength(t, r) == d;
    assert b == p;
  }

  /**
    Step over backward followed by step over forward returns to the starting
    frame whenever the backward motion stopped on a frame at the same depth.
   */
  lemma OverRoundTripBackward(t: seq<Frame>, p: int)
    requires 0 <= p < |t|
    requires var r := Move(t, Over, Backward, p, 1); r >= 0 && t[r].depth == t[p].depth
    ensures Move(t, Over, Forward, Move(t, Over, Backward, p, 1), 1) == p
  {
    var r := Move(t, Over, Backward, p, 1);
    var d := BacktraceLength(t, p);
    assert r == SeekBackward(t, p, d);
    var f := SeekForward(t, r, BacktraceLength(t, r));
    assert Move(t, Over, Forward, r, 1) == f;
    assert BacktraceLength(t, r) == d;
    assert f == p;
  }

  /**
    In a well-formed trace, step out backward from a nested frame lands on its
    parent: the nearest earlier frame one level shallower, with nothing
    shallower than the starting frame in between.
   */
  lemma {:induction false} OutBackwardFindsParent(t: seq<Frame>, p: int)
    requires WellFormed(t)
    requires 0 <= p < |t| && t[p].depth > 0
    ensures var r := Move(t, Out, Backward, p, 1);
      && 0 <= r < p
      && t[r].depth == t[p].depth - 1
      && forall q :: r < q < p ==> t[q].depth >= t[p].depth
  {
    var d := BacktraceLength(t, p) - 1;
    var r := SeekBackward(t, p, d);
    assert Move(t, Out, Backward, p, 1) == r;
    assert p != 0;
    assert BacktraceLength(t, 0) <= d;
    assert r != -1;
    assert r + 1 == p || BacktraceLength(t, r + 1) > d;
    assert t[r + 1].depth <= t[r].depth + 1;
    forall q | r < q < p
      ensures t[q].depth >= t[p].depth
    {
      assert BacktraceLength(t, q) > d;
    }
  }

  /** From a frame at depth 0, step out backward reaches the position before the first frame. */
  lemma {:induction false} OutBackwardOfTopLevel(t: seq<Frame>, p: int)
    requires 0 <= p < |t| && t[p].depth == 0
    ensures Move(t, Out, Backward, p, 1) == -1
  {
    var r := SeekBackward(t, p, 0);
    assert Move(t, Out, Backward, p, 1) == r;
  }
}
